=== FILE: README.md ===
# krakenLog logger — a Dafny model

This project models the `Logger` of krakenLog, a small colourised console
logger. A call to `log` (or its `warning`/`error` shorthands) does three things:

- it validates the severity against NORMAL, WARNING and ERROR;
- it drops the message when its subject is ignored, when every subject is
  ignored, or when its severity is ignored;
- otherwise it prints a prefix and a message. The prefix is the subject, the
  severity, `@` and the elapsed time since the logger was built, on a
  severity-coloured background. The message is in the severity's text colour.

The model is functional:

- A `Logger` is an immutable configuration record.
- `Log` returns `Result<Option<Line>, LogError>`. The error is the invalid
  severity; `None` means the message was suppressed; `Some(line)` is the line
  the source prints.
- Styled output is a sequence of `Piece`s: a colour code, the reset code, or
  text. `Visible` gives the characters a reader sees.
- The clock becomes a parameter: the elapsed time, in whole seconds.

Modules:

- `Wrappers`: the `Option` and `Result` types.
- `Decimal`: `str(int)` for natural numbers.
- `Duration`: the h/m/s split, the elapsed-time token and a reader for it.
  The reader is used to show that the token is unambiguous.
- `Severities`: the severity enumeration and the validation of tokens.
- `Colours`: the opaque colour codes and styled text.
- `Logger`: construction, the colour table, line layout, `log`, `warning`
  and `error`.

Each of the `<n>h`, `<n>m` and `<n>s` segments is dropped on its own when its
first character is `0`, so 3605 seconds renders as `1h5s` and 0 seconds as the
empty string.

The Python defaults of `log` (`severity=NORMAL`, `subject=None`) and of
`warning`/`error` (`subject=None`) have no separate members: callers pass
`Severities.NORMAL` and `None` explicitly.

## Model

| member | source | states |
|---|---|---|
| Logger.Create | krakenLog.py:20-27 | an absent ignore list means nothing of that kind is ignored; a given list is kept as is |
| Severities.Parse | krakenLog.py:46-47 | a string is rejected exactly when it is not one of the three severity tokens; an accepted string is the token of the severity it yields |
| Severities.Name | krakenLog.py:46-47 | each severity's token is one of the three tokens validation accepts |
| Severities.ParseName | krakenLog.py:46 | every severity's token passes validation as that same severity |
| Severities.NameInjective | krakenLog.py:46 | distinct severities have distinct tokens |
| Logger.Describe | krakenLog.py:47 | the error text quotes the offending severity |
| Logger.Suppressed | krakenLog.py:48 | a message is dropped for a listed subject, when all subjects are ignored, or for a listed severity; with no subject only the sentinel or the severity can drop it; a logger built with the default lists drops nothing |
| Logger.Log | krakenLog.py:45-51 | fails with InvalidSeverity(s) iff s is not a valid token; for a valid one, returns no line iff the subject is listed, all subjects are ignored, or the severity is ignored; a printed line shows subject text, severity, " @ " and the duration, and its message part shows the message |
| Logger.InvalidSeverityFails | krakenLog.py:46-48 | validation precedes suppression: an invalid severity errors even when it is ignored or all subjects are |
| Logger.DecisionIgnoresMessage | krakenLog.py:48 | whether a line is produced does not depend on the message text or the elapsed time |
| Logger.DefaultLoggerPrints | krakenLog.py:20-51 | a logger built with no ignore lists prints every message with a valid severity |
| Logger.IgnoredSubjectDropped | krakenLog.py:48 | with "debug" ignored, a "debug" message yields no line |
| Logger.OtherSubjectShown | krakenLog.py:48-51 | with "debug" ignored, an "other" message is printed with visible prefix "other NORMAL @ " followed by the duration |
| Logger.SubjectText | krakenLog.py:49-50 | an absent subject shows as nothing; a present one shows as the subject followed by exactly one space |
| Logger.Background | krakenLog.py:70-78 | each severity's prefix colour is a background colour |
| Logger.Foreground | krakenLog.py:70-78 | each severity's message colour is a foreground colour other than the prefix's black text |
| Logger.SeverityOfBackground | krakenLog.py:70-78 | exactly the background colours name a severity |
| Logger.BackgroundIdentifiesSeverity | krakenLog.py:70-78 | the prefix background determines the severity |
| Logger.PaletteDistinct | krakenLog.py:70-78 | distinct severities get distinct backgrounds and distinct message colours |
| Logger.Format | krakenLog.py:67-82 | prefix is background, black text, the text "subject severity @ duration", reset; message is the severity's colour, the message, reset |
| Colours.VisibleFramed | krakenLog.py:81-82 | text wrapped in leading colour codes and a trailing reset shows as exactly that text |
| Logger.OnlyDurationVaries | krakenLog.py:56-82 | repeating a printed call at another time changes only the prefix text, and that text changes iff the elapsed time does |
| Logger.Warning | krakenLog.py:30-31 | never fails; suppressed exactly by the rule for WARNING; a printed line is yellow |
| Logger.Error | krakenLog.py:34-35 | never fails; suppressed exactly by the rule for ERROR; a printed line is red |
| Logger.WrappersAreLog | krakenLog.py:30-35 | warning and error are log with severity WARNING and ERROR |
| Duration.Decompose | krakenLog.py:58-59 | hours*3600 + minutes*60 + seconds equals the elapsed seconds, with minutes and seconds below 60 |
| Duration.DecomposeUnique | krakenLog.py:58-59 | every normalised h/m/s triple is the decomposition of its own total |
| Duration.Segment | krakenLog.py:62 | a segment is the numeral followed by its unit letter, and it starts with '0' iff its value is zero |
| Duration.Segments | krakenLog.py:62 | the three segments of the h, m, s split, none of them empty |
| Duration.Kept | krakenLog.py:63 | a segment is kept whole unless its first character is '0', in which case it is dropped |
| Duration.Compile | krakenLog.py:61-64 | the accumulated token is empty iff every segment starts with '0', and a non-empty token never starts with '0' |
| Duration.KeptSegment | krakenLog.py:62-64 | the first-character-is-'0' test drops exactly the zero-valued segments |
| Duration.CompileThree | krakenLog.py:61-64 | the loop concatenates the surviving segments in h, m, s order with no separator |
| Duration.Render | krakenLog.py:58-64 | the token is the h, m, s segments in order, each present iff its value is non-zero; it is empty iff no time has elapsed |
| Duration.RenderZero | krakenLog.py:61-64 | 0 seconds renders as "" |
| Duration.RenderSecondsOnly | krakenLog.py:61-64 | 5 seconds renders as "5s" |
| Duration.RenderMinutesAndSeconds | krakenLog.py:61-64 | 65 seconds renders as "1m5s" |
| Duration.RenderSkipsZeroMinutes | krakenLog.py:61-64 | 3605 seconds renders as "1h5s": the zero minutes in the middle are dropped |
| Duration.RenderAllSegments | krakenLog.py:61-64 | 3665 seconds renders as "1h1m5s" |
| Duration.ParseRender | krakenLog.py:58-64 | reading the token back gives the elapsed seconds it was rendered from |
| Duration.RenderInjective | krakenLog.py:58-64 | distinct elapsed times give distinct tokens |
| Decimal.FromNat | krakenLog.py:62 | the numeral is non-empty and made only of digits |
| Decimal.ValueOfFromNat | krakenLog.py:62 | the numeral denotes the number it renders |
| Decimal.LeadingZeroIffZero | krakenLog.py:62-63 | a numeral starts with '0' iff the number is zero |

## Left out

- The clock (`time.time()` and `init_time`, krakenLog.py:25 and 56). The model takes the elapsed whole seconds as a parameter.
- Negative elapsed time. The wall clock can step backwards, and Python then renders a segment such as `-1h`. The elapsed time is a natural number here.
- Fractional seconds and float precision. The float `divmod` and `int()` truncation at lines 58-62 give the same hours, minutes and seconds as integer division of the floor of the elapsed time, except for float rounding at extreme magnitudes.
- `print` and standard output (line 83). `Log` returns the two parts instead of writing them joined by a space.
- The escape sequences of the `colour` module. The colour codes and the reset code are opaque tokens.
- The values in the `constants` module. The severity tokens are taken to be "NORMAL", "WARNING" and "ERROR". Validation relies on their distinctness; the displayed prefix, and the example OtherSubjectShown, rely on their spelling.
- Later changes to the ignore lists. The source keeps the caller's list objects as public attributes and re-reads them on every call, so mutating or reassigning them changes suppression; the model fixes the configuration at Create.
- The `ALL` sentinel. It is the `IgnoreAll` case of `SubjectFilter`. The model does not cover an explicit list that happens to equal `ALL`, nor a `subject in ALL` test that raises before the equality is reached.
- Arguments of the wrong Python type, such as a non-string severity or subject. They are ruled out by the types here.
- `_log` called directly with an invalid severity. That would print `None` for the colours. The model formats only validated severities, as `log` does.
- The demonstration block under `__main__` (lines 85-91).

=== FILE: colours.dfy ===
/**
 * Terminal styling as opaque tokens: the escape sequences themselves belong
 * to the colour module the logger imports and are not modelled, only which
 * code stands where.
 */
module Colours {

  datatype Colour = F_Black | F_Blue | F_Yellow | F_Red | B_Blue | B_Yellow | B_Red

  predicate IsBackground(c: Colour) {
    c.B_Blue? || c.B_Yellow? || c.B_Red?
  }

  /** A piece of styled output: a colour code, the reset code, or literal text. */
  datatype Piece = Paint(colour: Colour) | Reset | Text(text: string)

  /** The characters a reader sees: the text pieces, codes left out. */
  function Visible(pieces: seq<Piece>): string {
    if |pieces| == 0 then ""
    else
      var last := pieces[|pieces| - 1];
      Visible(pieces[..|pieces| - 1]) + (if last.Text? then last.text else "")
  }

  lemma {:induction false} VisibleAppend(a: seq<Piece>, b: seq<Piece>)
    ensures Visible(a + b) == Visible(a) + Visible(b)
    decreases |b|
  {
    if |b| == 0 {
      assert a + b == a;
    } else {
      var b' := b[..|b| - 1];
      assert (a + b)[..|a + b| - 1] == a + b';
      VisibleAppend(a, b');
    }
  }

  /** Pieces made only of codes show nothing. */
  lemma {:induction false} VisibleOfCodes(codes: seq<Piece>)
    requires forall i :: 0 <= i < |codes| ==> !codes[i].Text?
    ensures Visible(codes) == ""
    decreases |codes|
  {
    if |codes| > 0 {
      VisibleOfCodes(codes[..|codes| - 1]);
    }
  }

  /** Text framed by leading codes and a final reset shows as that text. */
  lemma VisibleFramed(codes: seq<Piece>, text: string)
    requires forall i :: 0 <= i < |codes| ==> !codes[i].Text?
    ensures Visible(codes + [Text(text), Reset]) == text
  {
    var tail := [Text(text), Reset];
    assert tail[..1] == [Text(text)] && [Text(text)][..0] == [];
    assert Visible([Text(text)]) == text;
    assert Visible(tail) == text;
    VisibleOfCodes(codes);
    VisibleAppend(codes, tail);
  }
}

=== FILE: decimal.dfy ===
/** Decimal rendering of natural numbers, as Python's `str(int)` prints them. */
module Decimal {

  predicate IsDigit(c: char) {
    '0' <= c <= '9'
  }

  predicate AllDigits(s: string) {
    forall i :: 0 <= i < |s| ==> IsDigit(s[i])
  }

  function DigitChar(d: nat): (c: char)
    requires d < 10
    ensures IsDigit(c)
    ensures c as int - '0' as int == d
  {
    ('0' as int + d) as char
  }

  function DigitValue(c: char): (d: nat)
    requires IsDigit(c)
    ensures d < 10
    ensures DigitChar(d) == c
  {
    c as int - '0' as int
  }

  /** The shortest decimal numeral of `n`, most significant digit first. */
  function FromNat(n: nat): (r: string)
    ensures |r| > 0
    ensures AllDigits(r)
    decreases n
  {
    if n < 10 then [DigitChar(n)] else FromNat(n / 10) + [DigitChar(n % 10)]
  }

  /** The number a string of digits denotes. */
  function Value(s: string): nat
    requires AllDigits(s)
  {
    if |s| == 0 then 0 else Value(s[..|s| - 1]) * 10 + DigitValue(s[|s| - 1])
  }

  /** Reading the numeral back gives the number: the rendering loses nothing. */
  lemma {:induction false} ValueOfFromNat(n: nat)
    ensures Value(FromNat(n)) == n
    decreases n
  {
    var r := FromNat(n);
    if n >= 10 {
      ValueOfFromNat(n / 10);
      assert r[..|r| - 1] == FromNat(n / 10);
    }
  }

  /** A numeral starts with the digit zero exactly when it is the numeral of zero. */
  lemma {:induction false} LeadingZeroIffZero(n: nat)
    ensures FromNat(n)[0] == '0' <==> n == 0
    decreases n
  {
    if n >= 10 {
      LeadingZeroIffZero(n / 10);
      assert FromNat(n)[0] == FromNat(n / 10)[0];
    }
  }
}

=== FILE: duration.dfy ===
/**
 * The elapsed-time token of a log line: whole seconds split into hours,
 * minutes and seconds, each rendered as `<n>h`, `<n>m`, `<n>s`, with every
 * segment whose first character is '0' dropped on its own.
 */
module Duration {
  import opened Wrappers
  import Decimal

  const SecondsPerMinute: nat := 60
  const SecondsPerHour: nat := 60 * 60

  datatype Clock = Clock(hours: nat, minutes: nat, seconds: nat)

  function TotalSeconds(c: Clock): nat {
    c.hours * SecondsPerHour + c.minutes * SecondsPerMinute + c.seconds
  }

  predicate Normalised(c: Clock) {
    c.minutes < SecondsPerMinute && c.seconds < SecondsPerMinute
  }

  /** The two `divmod` steps: hours first, then minutes and seconds of the remainder. */
  function Decompose(t: nat): (c: Clock)
    ensures Normalised(c)
    ensures TotalSeconds(c) == t
  {
    var minutes := t % SecondsPerHour;
    Clock(t / SecondsPerHour, minutes / SecondsPerMinute, minutes % SecondsPerMinute)
  }

  /** A normalised clock is the only decomposition of its total. */
  lemma DecomposeUnique(c: Clock)
    requires Normalised(c)
    ensures Decompose(TotalSeconds(c)) == c
  {
    var rest := c.minutes * SecondsPerMinute + c.seconds;
    DivModUnique(TotalSeconds(c), SecondsPerHour, c.hours, rest);
    DivModUnique(rest, SecondsPerMinute, c.minutes, c.seconds);
  }

  /** Quotient and remainder are determined by `t == q * d + r` with `0 <= r < d`. */
  lemma DivModUnique(t: int, d: int, q: int, r: int)
    requires 0 < d && 0 <= r < d && t == q * d + r
    ensures t / d == q && t % d == r
  {
    var q', r' := t / d, t % d;
    assert (q' - q) * d == r - r';
    if q' - q >= 1 {
      MulAtLeast(q' - q, d);
      assert false;
    } else if q - q' >= 1 {
      MulAtLeast(q - q', d);
      assert false;
    }
  }

  lemma MulAtLeast(k: int, d: int)
    requires k >= 1 && d > 0
    ensures k * d >= d
  {
  }

  /** One segment as the source formats it: the numeral followed by its unit letter. */
  function Segment(n: nat, unit: char): (segment: string)
    ensures |segment| >= 2 && segment[|segment| - 1] == unit
    ensures segment[0] == '0' <==> n == 0
  {
    Decimal.LeadingZeroIffZero(n);
    Decimal.FromNat(n) + [unit]
  }

  /** The segment as it survives in the token: present exactly when the value is non-zero. */
  function Shown(n: nat, unit: char): string {
    if n == 0 then "" else Segment(n, unit)
  }

  predicate NonEmptySegments(segments: seq<string>) {
    forall i :: 0 <= i < |segments| ==> |segments[i]| > 0
  }

  /** A segment survives unless its first character is '0'. */
  function Kept(segment: string): (kept: string)
    requires |segment| > 0
    ensures kept == "" || kept == segment
    ensures kept == "" <==> segment[0] == '0'
  {
    if segment[0] == '0' then "" else segment
  }

  /** The accumulation loop: append each surviving segment, in order, with no separator. */
  function Compile(segments: seq<string>): (token: string)
    requires NonEmptySegments(segments)
    ensures token == "" <==> forall i :: 0 <= i < |segments| ==> segments[i][0] == '0'
    ensures token != "" ==> token[0] != '0'
  {
    if |segments| == 0 then ""
    else
      var earlier := segments[..|segments| - 1];
      var last := segments[|segments| - 1];
      assert forall i :: 0 <= i < |earlier| ==> earlier[i] == segments[i];
      var token := Compile(earlier) + Kept(last);
      assert Compile(earlier) != "" ==> token[0] == Compile(earlier)[0];
      token
  }

  lemma CompileThree(a: string, b: string, c: string)
    requires |a| > 0 && |b| > 0 && |c| > 0
    ensures Compile([a, b, c]) == Kept(a) + Kept(b) + Kept(c)
  {
    assert [a, b, c][..2] == [a, b];
    assert [a, b][..1] == [a];
    assert [a][..0] == [];
    assert Compile([a]) == Kept(a);
    assert Compile([a, b]) == Kept(a) + Kept(b);
  }

  /** Dropping on the leading '0' is dropping exactly the zero-valued segments. */
  lemma KeptSegment(n: nat, unit: char)
    ensures Kept(Segment(n, unit)) == Shown(n, unit)
  {
    Decimal.LeadingZeroIffZero(n);
  }

  function Segments(t: nat): (segments: seq<string>)
    ensures |segments| == 3 && NonEmptySegments(segments)
  {
    var c := Decompose(t);
    [Segment(c.hours, 'h'), Segment(c.minutes, 'm'), Segment(c.seconds, 's')]
  }

  /** The elapsed-time token for `t` whole seconds. */
  function Render(t: nat): (r: string)
    ensures var c := Decompose(t);
      r == Shown(c.hours, 'h') + Shown(c.minutes, 'm') + Shown(c.seconds, 's')
    ensures r == "" <==> t == 0
  {
    var c := Decompose(t);
    var segments := Segments(t);
    KeptSegment(c.hours, 'h');
    KeptSegment(c.minutes, 'm');
    KeptSegment(c.seconds, 's');
    CompileThree(segments[0], segments[1], segments[2]);
    assert t == 0 <==> c == Clock(0, 0, 0);
    Compile(segments)
  }

  lemma RenderZero()
    ensures Render(0) == ""
  {
  }

  lemma RenderSecondsOnly()
    ensures Render(5) == "5s"
  {
    assert Decompose(5) == Clock(0, 0, 5);
    assert Decimal.FromNat(5) == "5";
  }

  lemma RenderMinutesAndSeconds()
    ensures Render(65) == "1m5s"
  {
    assert Decompose(65) == Clock(0, 1, 5);
    assert Decimal.FromNat(1) == "1";
    assert Decimal.FromNat(5) == "5";
  }

  /** The zero minutes between non-zero hours and seconds are dropped too. */
  lemma RenderSkipsZeroMinutes()
    ensures Render(3605) == "1h5s"
  {
    assert Decompose(3605) == Clock(1, 0, 5);
    assert Decimal.FromNat(1) == "1";
    assert Decimal.FromNat(5) == "5";
  }

  lemma RenderAllSegments()
    ensures Render(3665) == "1h1m5s"
  {
    assert Decompose(3665) == Clock(1, 1, 5);
    assert Decimal.FromNat(1) == "1";
    assert Decimal.FromNat(5) == "5";
  }

  // ---------------------------------------------------------------------
  // Reading a token back: the rendering is unambiguous.
  // ---------------------------------------------------------------------

  /** Length of the run of digits at the front of `s`. */
  function DigitRun(s: string): (k: nat)
    ensures k <= |s|
    ensures Decimal.AllDigits(s[..k])
    ensures k < |s| ==> !Decimal.IsDigit(s[k])
  {
    if |s| == 0 || !Decimal.IsDigit(s[0]) then 0
    else
      var k := 1 + DigitRun(s[1..]);
      assert s[..k] == [s[0]] + s[1..][..k - 1];
      k
  }

  /**
   * Reads an optional `<digits><unit>` segment at the front of `s`; when
   * there is none, the segment counts as zero and nothing is consumed.
   */
  function ReadSegment(s: string, unit: char): (nat, string) {
    var k := DigitRun(s);
    if 0 < k < |s| && s[k] == unit then (Decimal.Value(s[..k]), s[k + 1..]) else (0, s)
  }

  /** The total seconds a token denotes, or None when it is not of the form `[<n>h][<n>m][<n>s]`. */
  function Parse(s: string): Option<nat> {
    var (h, afterHours) := ReadSegment(s, 'h');
    var (m, afterMinutes) := ReadSegment(afterHours, 'm');
    var (sec, afterSeconds) := ReadSegment(afterMinutes, 's');
    if afterSeconds == "" then Some(h * SecondsPerHour + m * SecondsPerMinute + sec) else None
  }

  lemma {:induction false} DigitRunOfDigits(digits: string, rest: string)
    requires Decimal.AllDigits(digits)
    requires |rest| > 0 && !Decimal.IsDigit(rest[0])
    ensures DigitRun(digits + rest) == |digits|
    decreases |digits|
  {
    if |digits| > 0 {
      assert (digits + rest)[1..] == digits[1..] + rest;
      DigitRunOfDigits(digits[1..], rest);
    } else {
      assert digits + rest == rest;
    }
  }

  /** A shown segment followed by `rest` is read off whole. */
  lemma ReadSegmentOfSegment(n: nat, unit: char, rest: string)
    requires !Decimal.IsDigit(unit)
    ensures ReadSegment(Segment(n, unit) + rest, unit) == (n, rest)
  {
    var digits := Decimal.FromNat(n);
    var s := Segment(n, unit) + rest;
    assert s == digits + ([unit] + rest);
    DigitRunOfDigits(digits, [unit] + rest);
    assert s[..|digits|] == digits;
    assert s[|digits| + 1..] == rest;
    Decimal.ValueOfFromNat(n);
  }

  /** A segment with another unit letter is not read as a segment of `unit`. */
  lemma ReadSegmentOfOther(n: nat, other: char, rest: string, unit: char)
    requires !Decimal.IsDigit(other) && other != unit
    ensures ReadSegment(Segment(n, other) + rest, unit) == (0, Segment(n, other) + rest)
  {
    var digits := Decimal.FromNat(n);
    var s := Segment(n, other) + rest;
    assert s == digits + ([other] + rest);
    DigitRunOfDigits(digits, [other] + rest);
    assert s[|digits|] == other;
  }

  /** The hours step consumes exactly the shown hours segment. */
  lemma ReadHours(c: Clock)
    ensures ReadSegment(Shown(c.hours, 'h') + (Shown(c.minutes, 'm') + Shown(c.seconds, 's')), 'h')
         == (c.hours, Shown(c.minutes, 'm') + Shown(c.seconds, 's'))
  {
    var hs, ms, ss := Shown(c.hours, 'h'), Shown(c.minutes, 'm'), Shown(c.seconds, 's');
    if c.minutes != 0 {
      ReadSegmentOfOther(c.minutes, 'm', ss, 'h');
    } else if c.seconds != 0 {
      ReadSegmentOfOther(c.seconds, 's', "", 'h');
      assert ms + ss == Segment(c.seconds, 's') + "";
    } else {
      assert ms + ss == "";
    }
    if c.hours != 0 {
      ReadSegmentOfSegment(c.hours, 'h', ms + ss);
    } else {
      assert hs + (ms + ss) == ms + ss;
    }
  }

  /** The minutes step consumes exactly the shown minutes segment. */
  lemma ReadMinutes(c: Clock)
    ensures ReadSegment(Shown(c.minutes, 'm') + Shown(c.seconds, 's'), 'm')
         == (c.minutes, Shown(c.seconds, 's'))
  {
    var ms, ss := Shown(c.minutes, 'm'), Shown(c.seconds, 's');
    if c.seconds != 0 {
      ReadSegmentOfOther(c.seconds, 's', "", 'm');
      assert ss == Segment(c.seconds, 's') + "";
    }
    if c.minutes != 0 {
      ReadSegmentOfSegment(c.minutes, 'm', ss);
    } else {
      assert ms + ss == ss;
    }
  }

  /** The seconds step consumes the rest of the token. */
  lemma ReadSeconds(c: Clock)
    ensures ReadSegment(Shown(c.seconds, 's'), 's') == (c.seconds, "")
  {
    if c.seconds != 0 {
      ReadSegmentOfSegment(c.seconds, 's', "");
      assert Shown(c.seconds, 's') == Segment(c.seconds, 's') + "";
    }
  }

  lemma ParseOfReads(s: string, c: Clock, afterHours: string, afterMinutes: string)
    requires ReadSegment(s, 'h') == (c.hours, afterHours)
    requires ReadSegment(afterHours, 'm') == (c.minutes, afterMinutes)
    requires ReadSegment(afterMinutes, 's') == (c.seconds, "")
    ensures Parse(s) == Some(TotalSeconds(c))
  {
  }

  /** Reading the token back yields the elapsed seconds it was rendered from. */
  lemma ParseRender(t: nat)
    ensures Parse(Render(t)) == Some(t)
  {
    var c := Decompose(t);
    var hs, ms, ss := Shown(c.hours, 'h'), Shown(c.minutes, 'm'), Shown(c.seconds, 's');
    assert Render(t) == hs + (ms + ss);
    ReadHours(c);
    ReadMinutes(c);
    ReadSeconds(c);
    ParseOfReads(hs + (ms + ss), c, ms + ss, ss);
  }

  /** Distinct elapsed times never share a token. */
  lemma RenderInjective(t1: nat, t2: nat)
    requires Render(t1) == Render(t2)
    ensures t1 == t2
  {
    ParseRender(t1);
    ParseRender(t2);
  }
}

=== FILE: logger.dfy ===
/**
 * The decision-and-formatting logic of the Logger: validate the severity,
 * apply the suppression rules, and lay out the coloured prefix and message.
 * The clock is replaced by the elapsed whole seconds, and instead of being
 * printed the line is returned.
 */
module Logger {
  import opened Wrappers
  import opened Colours
  import Severities
  import Duration

  /** Which subjects a logger ignores: every subject (the `ALL` sentinel) or the listed ones. */
  datatype SubjectFilter = IgnoreAll | IgnoreListed(subjects: seq<string>)

  /** A logger's configuration, fixed at construction. */
  datatype Logger = Logger(ignoredSubjects: SubjectFilter, ignoredSeverities: seq<string>)

  /** The only error: a severity that is not one of the three tokens. */
  datatype LogError = InvalidSeverity(severity: string)

  /** The two parts handed to `print`: the styled prefix and the styled message. */
  datatype Line = Line(prefix: seq<Piece>, message: seq<Piece>)

  /** Construction: an absent list means nothing is ignored. */
  function Create(subjects: Option<SubjectFilter>, severities: Option<seq<string>>): (l: Logger)
    ensures subjects.None? ==> l.ignoredSubjects == IgnoreListed([])
    ensures subjects.Some? ==> l.ignoredSubjects == subjects.value
    ensures severities.None? ==> l.ignoredSeverities == []
    ensures severities.Some? ==> l.ignoredSeverities == severities.value
  {
    Logger(
      if subjects.None? then IgnoreListed([]) else subjects.value,
      if severities.None? then [] else severities.value)
  }

  /** The text of the error raised for an invalid severity; it quotes the offending value. */
  function Describe(e: LogError): (text: string)
    ensures |text| > 10 + |e.severity|
    ensures text[10..10 + |e.severity|] == e.severity
  {
    " Severity " + e.severity + " is not valid. Use NORMAL, WARNING or ERROR."
  }

  // ---------------------------------------------------------------------
  // Colour table
  // ---------------------------------------------------------------------

  /** Background of the prefix for each severity. */
  function Background(sev: Severities.Severity): (c: Colour)
    ensures IsBackground(c)
  {
    match sev
    case Normal => B_Blue
    case Warning => B_Yellow
    case Error => B_Red
  }

  /** Text colour of the message for each severity. */
  function Foreground(sev: Severities.Severity): (c: Colour)
    ensures !IsBackground(c) && c != F_Black
  {
    match sev
    case Normal => F_Blue
    case Warning => F_Yellow
    case Error => F_Red
  }

  /** The severity whose prefix carries a given background, if any. */
  function SeverityOfBackground(c: Colour): (r: Option<Severities.Severity>)
    ensures r.None? <==> !IsBackground(c)
  {
    match c
    case B_Blue => Some(Severities.Normal)
    case B_Yellow => Some(Severities.Warning)
    case B_Red => Some(Severities.Error)
    case _ => None
  }

  /** The background identifies the severity, so distinct severities are coloured apart. */
  lemma BackgroundIdentifiesSeverity(sev: Severities.Severity)
    ensures SeverityOfBackground(Background(sev)) == Some(sev)
  {
  }

  /** The three (background, foreground) pairs are pairwise distinct. */
  lemma PaletteDistinct(a: Severities.Severity, b: Severities.Severity)
    requires a != b
    ensures Background(a) != Background(b)
    ensures Foreground(a) != Foreground(b)
  {
  }

  // ---------------------------------------------------------------------
  // Line assembly
  // ---------------------------------------------------------------------

  /** How a subject is shown in front of the severity: nothing, or the subject and one space. */
  function SubjectText(subject: Option<string>): (text: string)
    ensures subject.None? ==> text == ""
    ensures subject.Some? ==>
              |text| == |subject.value| + 1
              && text[..|subject.value|] == subject.value && text[|subject.value|] == ' '
  {
    if subject.None? then "" else subject.value + " "
  }

  /** The prefix in background colour with black text, then the message in the severity's colour. */
  function Format(sev: Severities.Severity, subjectText: string, message: string, elapsed: nat): (line: Line)
    ensures |line.prefix| == 4
    ensures line.prefix[0] == Paint(Background(sev)) && line.prefix[1] == Paint(F_Black)
    ensures line.prefix[2] == Text(subjectText + Severities.Name(sev) + " @ " + Duration.Render(elapsed))
    ensures line.prefix[3] == Reset
    ensures Visible(line.prefix) == subjectText + Severities.Name(sev) + " @ " + Duration.Render(elapsed)
    ensures |line.message| == 3
    ensures line.message[0] == Paint(Foreground(sev)) && line.message[1] == Text(message)
    ensures line.message[2] == Reset
    ensures Visible(line.message) == message
  {
    var text := subjectText + Severities.Name(sev) + " @ " + Duration.Render(elapsed);
    var prefix := [Paint(Background(sev)), Paint(F_Black)] + [Text(text), Reset];
    var body := [Paint(Foreground(sev))] + [Text(message), Reset];
    VisibleFramed([Paint(Background(sev)), Paint(F_Black)], text);
    VisibleFramed([Paint(Foreground(sev))], message);
    Line(prefix, body)
  }

  // ---------------------------------------------------------------------
  // log, warning, error
  // ---------------------------------------------------------------------

  /** The suppression rule: an ignored subject, ignoring every subject, or an ignored severity. */
  predicate Suppressed(l: Logger, severity: string, subject: Option<string>)
    // An absent subject is never in the list: only the sentinel or the severity can drop it.
    ensures subject.None? ==>
              (Suppressed(l, severity, subject) <==> l.ignoredSubjects.IgnoreAll? || severity in l.ignoredSeverities)
    // A logger built with the default lists drops nothing.
    ensures l == Create(None, None) ==> !Suppressed(l, severity, subject)
  {
    || (subject.Some? && l.ignoredSubjects.IgnoreListed? && subject.value in l.ignoredSubjects.subjects)
    || l.ignoredSubjects.IgnoreAll?
    || severity in l.ignoredSeverities
  }

  /**
   * Logs `message`: an invalid severity is an error; otherwise the result
   * is the line to print, or None when the message is suppressed.
   */
  function Log(l: Logger, message: string, severity: string, subject: Option<string>, elapsed: nat)
    : (r: Result<Option<Line>, LogError>)
    ensures r.Failure? <==> severity !in Severities.Tokens
    ensures r.Failure? ==> r.error == InvalidSeverity(severity)
    ensures r.Success? ==> (r.value.None? <==> Suppressed(l, severity, subject))
    ensures r.Success? && r.value.Some? ==>
      Visible(r.value.value.prefix) == SubjectText(subject) + severity + " @ " + Duration.Render(elapsed)
      && Visible(r.value.value.message) == message
    ensures r.Success? && r.value.Some? ==>
      r.value.value == Format(Severities.Parse(severity).value, SubjectText(subject), message, elapsed)
  {
    match Severities.Parse(severity)
    case None => Failure(InvalidSeverity(severity))
    case Some(sev) =>
      if Suppressed(l, severity, subject) then Success(None)
      else Success(Some(Format(sev, SubjectText(subject), message, elapsed)))
  }

  /** `warning`: logs with severity WARNING, which never fails validation. */
  function Warning(l: Logger, message: string, subject: Option<string>, elapsed: nat)
    : (r: Result<Option<Line>, LogError>)
    ensures r.Success?
    ensures r.value.None? <==> Suppressed(l, Severities.WARNING, subject)
    ensures r.value.Some? ==>
              && |r.value.value.prefix| > 0 && r.value.value.prefix[0] == Paint(B_Yellow)
              && |r.value.value.message| > 0 && r.value.value.message[0] == Paint(F_Yellow)
  {
    Log(l, message, Severities.WARNING, subject, elapsed)
  }

  /** `error`: logs with severity ERROR, which never fails validation. */
  function Error(l: Logger, message: string, subject: Option<string>, elapsed: nat)
    : (r: Result<Option<Line>, LogError>)
    ensures r.Success?
    ensures r.value.None? <==> Suppressed(l, Severities.ERROR, subject)
    ensures r.value.Some? ==>
              && |r.value.value.prefix| > 0 && r.value.value.prefix[0] == Paint(B_Red)
              && |r.value.value.message| > 0 && r.value.value.message[0] == Paint(F_Red)
  {
    Log(l, message, Severities.ERROR, subject, elapsed)
  }

  // ---------------------------------------------------------------------
  // Properties of log
  // ---------------------------------------------------------------------

  /** Validation comes first: an invalid severity errors even when it is ignored or everything is. */
  lemma InvalidSeverityFails(l: Logger, message: string, severity: string, subject: Option<string>, elapsed: nat)
    requires severity !in Severities.Tokens
    ensures Log(l, message, severity, subject, elapsed) == Failure(InvalidSeverity(severity))
  {
  }

  /** Whether a line is produced never depends on the message text or the elapsed time. */
  lemma DecisionIgnoresMessage(l: Logger, m1: string, m2: string, severity: string,
                               subject: Option<string>, t1: nat, t2: nat)
    ensures Log(l, m1, severity, subject, t1).Success? == Log(l, m2, severity, subject, t2).Success?
    ensures Log(l, m1, severity, subject, t1).Success? ==>
      Log(l, m1, severity, subject, t1).value.Some? == Log(l, m2, severity, subject, t2).value.Some?
  {
  }

  /** A logger built with no ignore lists prints every validly tagged message. */
  lemma DefaultLoggerPrints(message: string, sev: Severities.Severity, subject: Option<string>, elapsed: nat)
    ensures Log(Create(None, None), message, Severities.Name(sev), subject, elapsed).Success?
    ensures Log(Create(None, None), message, Severities.Name(sev), subject, elapsed).value.Some?
  {
  }

  /**
   * Two identical calls at different times differ only in the duration:
   * same colours, same message part, and prefixes whose visible text agrees
   * up to the elapsed-time token.
   */
  lemma OnlyDurationVaries(l: Logger, message: string, severity: string, subject: Option<string>, t1: nat, t2: nat)
    requires Log(l, message, severity, subject, t1).Success?
    requires Log(l, message, severity, subject, t1).value.Some?
    ensures Log(l, message, severity, subject, t2).Success?
    ensures Log(l, message, severity, subject, t2).value.Some?
    ensures var p1, p2 := Log(l, message, severity, subject, t1).value.value,
                          Log(l, message, severity, subject, t2).value.value;
      p1.message == p2.message && p1.prefix[0] == p2.prefix[0] && p1.prefix[1] == p2.prefix[1]
      && p1.prefix[3] == p2.prefix[3]
      && (Visible(p1.prefix) == Visible(p2.prefix) <==> t1 == t2)
  {
    var sev := Severities.Parse(severity).value;
    var lead := SubjectText(subject) + severity + " @ ";
    var d1, d2 := Duration.Render(t1), Duration.Render(t2);
    if lead + d1 == lead + d2 {
      assert d1 == (lead + d1)[|lead|..];
      assert d2 == (lead + d2)[|lead|..];
      Duration.RenderInjective(t1, t2);
    }
  }

  /** `warning` and `error` are `log` with the fixed severity. */
  lemma WrappersAreLog(l: Logger, message: string, subject: Option<string>, elapsed: nat)
    ensures Warning(l, message, subject, elapsed) == Log(l, message, Severities.WARNING, subject, elapsed)
    ensures Error(l, message, subject, elapsed) == Log(l, message, Severities.ERROR, subject, elapsed)
  {
  }

  /** Ignoring the subject "debug" drops its messages. */
  lemma IgnoredSubjectDropped(elapsed: nat)
    ensures Log(Create(Some(IgnoreListed(["debug"])), None), "x", Severities.NORMAL, Some("debug"), elapsed)
         == Success(None)
  {
  }

  /** Ignoring the subject "debug" still shows another subject's messages. */
  lemma OtherSubjectShown(elapsed: nat)
    ensures var r := Log(Create(Some(IgnoreListed(["debug"])), None), "x", Severities.NORMAL, Some("other"), elapsed);
      r.Success? && r.value.Some?
      && Visible(r.value.value.prefix) == "other NORMAL @ " + Duration.Render(elapsed)
      && Visible(r.value.value.message) == "x"
  {
    var l := Create(Some(IgnoreListed(["debug"])), None);
    assert "other" !in ["debug"];
    assert !Suppressed(l, Severities.NORMAL, Some("other"));
    assert SubjectText(Some("other")) + Severities.NORMAL + " @ " == "other NORMAL @ ";
  }
}

=== FILE: severity.dfy ===
/**
 * The three severities a message may carry. Callers pass a severity as a
 * string; only the three tokens below are accepted.
 */
module Severities {
  import opened Wrappers

  datatype Severity = Normal | Warning | Error

  /** The tokens callers pass and the prefix displays. */
  const NORMAL: string := "NORMAL"
  const WARNING: string := "WARNING"
  const ERROR: string := "ERROR"

  /** The accepted tokens, in the order the validation lists them. */
  const Tokens: seq<string> := [NORMAL, WARNING, ERROR]

  function Name(sev: Severity): (token: string)
    ensures token in Tokens
  {
    match sev
    case Normal => NORMAL
    case Warning => WARNING
    case Error => ERROR
  }

  /** Validation: the severity a token names, or None for any other string. */
  function Parse(token: string): (r: Option<Severity>)
    ensures r.None? <==> token !in Tokens
    ensures r.Some? ==> Name(r.value) == token
  {
    if token == NORMAL then Some(Normal)
    else if token == WARNING then Some(Warning)
    else if token == ERROR then Some(Error)
    else None
  }

  /** Every severity's token validates back to that severity. */
  lemma ParseName(sev: Severity)
    ensures Parse(Name(sev)) == Some(sev)
  {
  }

  /** Distinct severities display distinct tokens. */
  lemma NameInjective(a: Severity, b: Severity)
    requires Name(a) == Name(b)
    ensures a == b
  {
  }
}

=== FILE: wrappers.dfy ===
/** The Option and Result types of the model. */
module Wrappers {

  /** An optional value: the source's `None` or a present value. */
  datatype Option<+T> = None | Some(value: T)

  /** Either a successful value or the error a call raises. */
  datatype Result<+R, +E> = Success(value: R) | Failure(error: E)
}
